=== FILE: README.md ===
# Contract form rules (contratos-conaes), modelled in Dafny

The contract form (`src/App.tsx`) gathers a customer's data and a payment
amount, then posts them to an automation webhook. Most of the component is
React plumbing. A few pure rules sit inside it, and these are what this
project models and proves things about:

- **`numeroParaExtenso`**: an amount written out in Brazilian Portuguese
  ("sete mil oitocentos reais e doze centavos"). It uses four word tables,
  the helper `converterAte999` for 1..999, a thousands split, and a separate
  cents phrase. The amount is modelled as a whole number of cents `c`. The
  only caller passes `parseInt(valor_pagar) / 100`, so the integer part is
  `c / 100` and the cents are `c % 100`.
- **The installment effect**: `valor_parcela` is recomputed as the total
  divided by `qtd_parcelas`, rounded to the nearest cent with halves rounded
  up. This is what `Math.round` does on the exact quotient. The source
  divides in floating point, which differs at some half-cent ties (see
  "## Left out").
- **`checkAge` / `handleDateChange`**: the age in whole years, and the
  under-18 message.
- **String transforms**: the `replace(/\D/g, '')` digit filter in
  `handleChange` and `formatCurrency`, and the YYYY-MM-DD to DD-MM-YYYY
  reordering in `handleSubmit`.

Modules:

- `Wrappers`: `Option`.
- `Strings`: `split`/`join` on one separator, the digit filter, and
  `parseInt`/`toString` on digit strings, with exact integers.
- `Extenso`: the number-to-words formatter.
- `ExtensoDecode`: a reader for its phrases.
- `Parcela`: the installment value.
- `Idade`: the age check.
- `Formulario`: the change handler, the currency-input digits and the date
  reordering.

The formatter's main partner is `ExtensoDecode`. It splits a phrase on
spaces and folds the words into an amount of cents, using a word list
written independently of the formatter's tables. `AmountToWordsDecodes`
proves that reading the phrase for any amount gives that amount back. This
checks every table entry the formatter uses against the number it should spell. It also shows
that two different amounts never get the same phrase (`AmountToWordsInjective`).

Two quirks of the code are kept as written:

- The integer part 1 is written "um", so one real reads "um reais".
- A thousands remainder of 100 or more follows after a single space, without
  " e ". So 7 800 reais reads "sete mil oitocentos", and 1 100 reads
  "mil cem".

The code only requires `qtd_parcelas > 0` before recomputing. The 1..12
range exists only as HTML `min`/`max` attributes on the input, so the model
accepts any positive count.

## Model

| member | source | states |
|---|---|---|
| Extenso.TensAndUnits | src/App.tsx:55-75 | the tens-and-units phrase of 1..99 is non-empty; `Below100Reads` reads it back as its number |
| Extenso.Words999 | src/App.tsx:46-78 | `converterAte999` gives the empty string exactly for 0; `Words999Reads` reads every other phrase back as its number |
| Extenso.ThousandsWords | src/App.tsx:94-101 | the thousands part is non-empty; `ThousandsReads` reads it back as 1000·q |
| Extenso.IntegerWords | src/App.tsx:87-111 | the integer part is empty exactly for 0; `IntegerWordsReads` reads every phrase below one million back as its number |
| Extenso.CentsWords | src/App.tsx:119-134 | exactly one cent is "um centavo"; every larger amount of cents ends in " centavos" |
| Extenso.AmountToWords | src/App.tsx:39-140 | `numeroParaExtenso` always gives a non-empty phrase; `AmountToWordsDecodes` reads it back as the amount exactly |
| Extenso.Words999Hundreds | src/App.tsx:46-62 | 100 alone is "cem"; other exact hundreds are the `centenas` word alone; a hundreds word with a nonzero remainder is followed by " e " and the remainder's phrase |
| Extenso.Words999Below100 | src/App.tsx:50-56 | below 100 the 1..999 phrase is just the tens-and-units part |
| Extenso.TensAndUnitsShape | src/App.tsx:55-75 | units below ten use `unidades`; a tens digit of one uses `dezenasEspeciais`; a nonzero tens and a nonzero unit are joined by " e "; a round ten is the `dezenas` word alone |
| Extenso.IntegerWordsShape | src/App.tsx:94-109 | a thousands quotient of 1 is bare "mil", any other quotient q is q's phrase + " mil"; a nonzero remainder below 100 follows after " e ", one of 100 or more after a single space |
| Extenso.AmountToWordsShape | src/App.tsx:80-139 | zero is "zero"; integer part only ends in " reais"; both parts are joined by " reais e "; cents only are the cents phrase alone, with no "reais" |
| Extenso.OneRealIsUmReais | src/App.tsx:88-136 | one real is written "um reais" |
| ExtensoDecode.UnitsWord | src/App.tsx:40 | each `unidades` entry 1..9 is one word that reads as its own index |
| ExtensoDecode.TensWord | src/App.tsx:41 | each `dezenas` entry 2..9 is one word that reads as ten times its index |
| ExtensoDecode.TeensWord | src/App.tsx:42 | each `dezenasEspeciais` entry is one word that reads as ten plus its index |
| ExtensoDecode.HundredsWord | src/App.tsx:43 | each `centenas` entry 1..9 is one word that reads as a hundred times its index |
| ExtensoDecode.Words999Reads | src/App.tsx:46-78 | every 1..999 phrase reads back as exactly its number |
| ExtensoDecode.ThousandsReads | src/App.tsx:97-101 | the thousands part ("mil" or q + " mil") reads back as 1000·q |
| ExtensoDecode.IntegerWordsReads | src/App.tsx:88-111 | every integer phrase below one million reads back as its number |
| ExtensoDecode.CentsWordsAreWords999 | src/App.tsx:119-134 | the cents phrase is the 1..99 phrase followed by "centavo" for exactly one cent and "centavos" otherwise |
| ExtensoDecode.CentsWordsReads | src/App.tsx:119-134 | every cents phrase reads back as its number of cents |
| ExtensoDecode.AmountToWordsDecodes | src/App.tsx:39-140 | round trip: reading the phrase for any amount below one million reais gives that amount in cents |
| ExtensoDecode.AmountToWordsInjective | src/App.tsx:39-140 | two amounts have the same phrase if and only if they are equal |
| Parcela.InstallmentValue | src/App.tsx:168 | the installment r satisfies total/n − 1/2 < r ≤ total/n + 1/2 (nearest cent, halves up, on the exact quotient) |
| Parcela.InstallmentValueIsNearest | src/App.tsx:168 | an integer meets the nearest-halves-up condition if and only if it is the computed installment |
| Parcela.InstallmentValueError | src/App.tsx:168 | n installments miss the total by at most n/2 cents, and by less than n/2 below |
| Parcela.InstallmentValueExact | src/App.tsx:168 | when n divides the total, n installments add up to exactly the total |
| Parcela.RecomputeInstallment | src/App.tsx:162-175 | with an empty total, an empty count or a count ≤ 0 the field is unchanged; otherwise it is a canonical decimal string whose value is the nearest-halves-up installment |
| Parcela.RecomputeInstallmentIdempotent | src/App.tsx:162-175 | running the effect again with unchanged inputs changes nothing |
| Idade.Age | src/App.tsx:177-187 | the age is the largest k whose k-th birthday is not after today (for all k, both directions) |
| Idade.AgeYearDifference | src/App.tsx:180-186 | the age is the year difference, minus one exactly when today's month/day comes before the birth month/day |
| Idade.DateErrorFor | src/App.tsx:189-198 | the message is empty exactly when the 18th birthday is not after today, and is the under-18 message otherwise |
| Idade.EighteenToday | src/App.tsx:177-197 | a birth date exactly 18 years before today gives 18 and no error |
| Idade.EighteenTomorrow | src/App.tsx:177-197 | a birth date one day later gives 17 and the error |
| Strings.Digits | src/App.tsx:144 | the result has only digits, each digit exactly as often as in the input, and a digit-only input is unchanged |
| Strings.DigitsAppend | src/App.tsx:333 | the filter keeps the original order: it distributes over concatenation |
| Strings.DigitsIdempotent | src/App.tsx:333 | filtering twice equals filtering once |
| Strings.Split | src/App.tsx:236 | `split` always yields at least one field |
| Strings.JoinSplit | src/App.tsx:236 | no field contains the separator, and joining the fields with it gives the string back |
| Strings.SplitJoin | src/App.tsx:236 | splitting a join of separator-free fields gives the fields back |
| Strings.ParseDigits | src/App.tsx:164 | the exact value of a k-digit string is below 10^k (the empty string is only the recursion's base and is never parsed); this is `parseInt` below 2^53, see "## Left out"; `NatToStringParse` and `NatToString` make it the inverse of `toString` |
| Strings.NatToString | src/App.tsx:168 | `toString` yields a canonical digit string that `parseInt` reads back as the same number |
| Strings.NatToStringParse | src/App.tsx:164 | every canonical digit string is the `toString` of its own `parseInt` value |
| Formulario.HandleChange | src/App.tsx:329-344 | the edited field gets the value, with non-digits removed for `valor_pagar`; every other field is unchanged |
| Formulario.HandleChangeKeepsTotalDigits | src/App.tsx:332-337 | every edit keeps `valor_pagar` digit-only, which `parseInt` in the installment effect relies on |
| Formulario.CurrencyCents | src/App.tsx:142-150 | there is no amount exactly when the input has no digit; otherwise the amount is the value of its digits in cents |
| Formulario.ReformatDate | src/App.tsx:236-247 | the result always splits on '-' into exactly three fields: the input's third, second and first fields, "undefined" where one is missing |
| Formulario.ReformatDateFields | src/App.tsx:236-240 | "Y-M-D" with dash-free fields becomes "D-M-Y" |
| Formulario.ReformatDateInvolutive | src/App.tsx:243-247 | on a string with exactly three dash-separated fields, reordering twice gives the original |
| Formulario.ReformatEmptyDate | src/App.tsx:236-240 | an empty date has one field, so the missing positions print as "undefined": "undefined-undefined-" |

## Left out

- React state, hooks, JSX, `InputMask`, `setTimeout`, and the loading and success flags: UI plumbing with no rule of its own.
- `fetchAddress`, which queries the ViaCEP postal-code service, and the webhook POST in `handleSubmit`: network I/O. The digit filter `fetchAddress` applies to the CEP is the same `replace(/\D/g, '')` modelled as `Strings.Digits`.
- `valor_formatado` and `valor_real` in the `handleSubmit` payload: these are built from `Intl.NumberFormat` output, whose exact text is library behaviour. The date reordering and the amount in words are modelled.
- `enderecoCompleto` (src/App.tsx:249): a template of the address fields for the payload, with no rule of its own.
- `Intl.NumberFormat` (src/App.tsx:153-158, 254-275): library formatting. Only the digit-stripping step of `formatCurrency` is modelled, in `Formulario.CurrencyCents`.
- Floating point: the `Math.round((numero - inteiro) * 100)` split (src/App.tsx:83) and the `/ 100` float arithmetic of the installment effect. Both are modelled on exact integer cents. For the amount split this gives the same cents throughout the modelled range; for the installment it does not at some ties (next line).
- Parcela.InstallmentValue: models exact halves-up rounding of total/n. The source computes `Math.round((parseInt(v) / 100 / n) * 100)` in doubles (src/App.tsx:164-168), where the product at a half-cent tie often lands just below .5 and is rounded down: 29 cents over 2 gives 14 (the model gives 15), and 1003 cents over 2 gives 501 (the model gives 502). Inputs that are not ties agree for totals below 10^15 cents; above that the double quotient itself can round to a different cent, and from 2^53 cents `parseInt` is already inexact (see the `Strings.ParseDigits` line). `Parcela.InstallmentValueIsNearest` and `Parcela.InstallmentValueError` describe the exact rounding, not the source's value at those ties, where the source breaks the strict bound of `InstallmentValueError`.
- Strings.ParseDigits: reads a digit string exactly, at every length. The source's `parseInt` (src/App.tsx:150, 164) returns a double, which is exact only below 2^53 = 9 007 199 254 740 992; above that it rounds (`parseInt("99999999999999999")` is 10^17), so the bound below 10^k and the value itself hold for the source only below 2^53.
- Strings.NatToString: prints every number as exact decimal digits. The source's `toString` (src/App.tsx:168) receives a double, so it prints a rounded value above 2^53, and from 10^21 it uses exponent notation ("1e+21").
- Strings.NatToStringParse: the round trip between canonical digit strings and their values holds exactly in the model; in the source it holds only below 2^53, so it fails from some 17-digit strings on.
- Formulario.CurrencyCents: the amount is the exact value of the input's digits. The source's `parseInt` (src/App.tsx:150) is exact only below 2^53 cents, and `HandleChange` keeps any number of digits, so longer inputs give a rounded amount there.
- Parcela.RecomputeInstallment: reads `valor_pagar` and prints the installment exactly. The source's `parseInt` is exact only below 2^53 cents, and its `toString` uses exponent notation from 10^21, so for such totals the source's field differs from the model's (besides the ties of the `Parcela.InstallmentValue` line).
- Extenso.AmountToWords: requires an integer part below 1 000 000 reais. For larger values the source indexes `centenas` past its end, and that output is not modelled.
- Parcela.RecomputeInstallment: takes `qtd_parcelas` already read as an integer (`None` for an empty field). The browser's number-input sanitising and `parseInt` of decimal or exponent forms such as "2.5" are not modelled.
- Idade.Age: dates are integer triples. Parsing the date string with JavaScript `Date`, time zones, and invalid dates are not modelled. `checkAge` parses "YYYY-MM-DD" as UTC midnight and then reads local date parts (src/App.tsx:179-183), so at a negative UTC offset the birth day is read one day early. `Idade.EighteenTomorrow` therefore holds on integer triples, not on the browser's parse at such an offset, where someone who turns 18 tomorrow passes the check.
- The `handleSubmit` guard that refuses to submit while the date error is set (src/App.tsx:227-230): a UI gate with no computation.

=== FILE: extenso.dfy ===
/**
  `numeroParaExtenso`: a monetary amount written out in Brazilian Portuguese
  ("sete mil oitocentos reais e doze centavos"). The amount is an integer
  number of cents; the integer part (reais) must stay below one million,
  because the thousands quotient is itself rendered by the 1..999 helper.
*/
module Extenso {

  /** unidades: 1..9 (index 0 is the empty word). */
  const Units: seq<string> :=
    ["", "um", "dois", "três", "quatro", "cinco", "seis", "sete", "oito", "nove"]

  /** dezenas: 10, 20, ..., 90 by tens digit. */
  const Tens: seq<string> :=
    ["", "dez", "vinte", "trinta", "quarenta", "cinquenta", "sessenta", "setenta", "oitenta", "noventa"]

  /** dezenasEspeciais: 10..19 by units digit. */
  const Teens: seq<string> :=
    ["dez", "onze", "doze", "treze", "quatorze", "quinze", "dezesseis", "dezessete", "dezoito", "dezenove"]

  /** centenas: 100 ("cento"), 200, ..., 900 by hundreds digit. */
  const Hundreds: seq<string> :=
    ["", "cento", "duzentos", "trezentos", "quatrocentos", "quinhentos", "seiscentos", "setecentos", "oitocentos", "novecentos"]

  /** Largest integer part (exclusive) the formatter can render. */
  const IntegerLimit: nat := 1_000_000

  /** The tens-and-units part of a number, 1..99: the teens table for a tens
      digit of one, otherwise the tens word and the units word joined by " e "
      when both digits are nonzero. */
  function TensAndUnits(rest: nat): (s: string)
    requires 1 <= rest < 100
    ensures s != []
  {
    var ten := rest / 10;
    var unit := rest % 10;
    if ten == 1 then Teens[unit]
    else if ten > 0 then Tens[ten] + (if unit > 0 then " e " + Units[unit] else "")
    else Units[unit]
  }

  /** `converterAte999`: 0 gives the empty string, anything else a non-empty phrase. */
  function Words999(n: nat): (s: string)
    requires n < 1000
    ensures s == [] <==> n == 0
  {
    if n == 0 then ""
    else if n == 100 then "cem"
    else
      var hundred := n / 100;
      var rest := n % 100;
      if rest == 0 then Hundreds[hundred]
      else if hundred > 0 then Hundreds[hundred] + " e " + TensAndUnits(rest)
      else TensAndUnits(rest)
  }

  /** The thousands part: bare "mil" for one thousand, otherwise the
      quotient's own phrase followed by " mil". */
  function ThousandsWords(q: nat): (s: string)
    requires 1 <= q < 1000
    ensures s != []
  {
    if q == 1 then "mil" else Words999(q) + " mil"
  }

  /** The integer part in words: bare "um" for one, the thousands part, and
      the remainder joined by " e " below 100 and by a single space from 100
      up. Zero gives the empty string. */
  function IntegerWords(i: nat): (s: string)
    requires i < IntegerLimit
    ensures s == [] <==> i == 0
  {
    if i == 1 then "um"
    else if i == 0 then ""
    else if i < 1000 then Words999(i)
    else
      var thousands := i / 1000;
      var rest := i % 1000;
      var head := ThousandsWords(thousands);
      if rest == 0 then head
      else if rest < 100 then head + " e " + Words999(rest)
      else head + " " + Words999(rest)
  }

  /** The cents phrase for 1..99 cents, singular only for exactly one cent. */
  function CentsWords(d: nat): (s: string)
    requires 1 <= d < 100
    ensures d == 1 ==> s == "um centavo"
    ensures d > 1 ==> |s| > 9 && s[|s| - 9..] == " centavos"
  {
    if d == 1 then "um centavo"
    else if d < 10 then Units[d] + " centavos"
    else if d < 20 then Teens[d - 10] + " centavos"
    else
      var ten := d / 10;
      var unit := d % 10;
      if unit == 0 then Tens[ten] + " centavos"
      else Tens[ten] + " e " + Units[unit] + " centavos"
  }

  /** `numeroParaExtenso(cents / 100)`. */
  function AmountToWords(cents: nat): (s: string)
    requires cents / 100 < IntegerLimit
    ensures s != []
  {
    if cents == 0 then "zero"
    else
      var reais := cents / 100;
      var centavos := cents % 100;
      var integerPart := IntegerWords(reais);
      if centavos > 0 then
        integerPart + (if reais > 0 then " reais e " else "") + CentsWords(centavos)
      else if reais > 0 then integerPart + " reais"
      else integerPart
  }

  // ---------------------------------------------------------------------------
  // Shape of the phrases, branch by branch
  // ---------------------------------------------------------------------------

  /** The 1..999 rules from 100 up: "cem" for 100 alone, the hundreds word
      alone for other exact hundreds, and " e " after a hundreds word that has
      a nonzero remainder, followed by the phrase of that remainder. */
  lemma Words999Hundreds(n: nat)
    requires 100 <= n < 1000
    ensures n == 100 ==> Words999(n) == "cem"
    ensures n != 100 && n % 100 == 0 ==> Words999(n) == Hundreds[n / 100]
    ensures n % 100 != 0 ==> Words999(n) == Hundreds[n / 100] + " e " + Words999(n % 100)
  {
    if n % 100 != 0 {
      Words999Below100(n % 100);
    }
  }

  /** Below 100 the phrase is the tens-and-units part alone. */
  lemma Words999Below100(n: nat)
    requires 1 <= n < 100
    ensures Words999(n) == TensAndUnits(n)
  {
    assert n / 100 == 0 && n % 100 == n;
  }

  /** The 1..99 rules: the units table below ten, the teens table for a tens
      digit of one, " e " between a nonzero tens and a nonzero unit, and the
      tens word alone for a round ten. */
  lemma TensAndUnitsShape(n: nat)
    requires 1 <= n < 100
    ensures n < 10 ==> TensAndUnits(n) == Units[n]
    ensures n / 10 == 1 ==> TensAndUnits(n) == Teens[n % 10]
    ensures n / 10 >= 2 && n % 10 != 0 ==> TensAndUnits(n) == Tens[n / 10] + " e " + Units[n % 10]
    ensures n / 10 >= 2 && n % 10 == 0 ==> TensAndUnits(n) == Tens[n / 10]
  {
    if n / 10 >= 2 && n % 10 == 0 {
      assert Tens[n / 10] + "" == Tens[n / 10];
    }
  }

  /** Thousands: a quotient of one is the bare word "mil", any other quotient
      is its own phrase followed by " mil"; a nonzero remainder below 100
      follows after " e ", one of 100 or more after a single space. */
  lemma IntegerWordsShape(i: nat)
    requires 1000 <= i < IntegerLimit
    ensures i / 1000 == 1 ==> ThousandsWords(i / 1000) == "mil"
    ensures i / 1000 > 1 ==> ThousandsWords(i / 1000) == Words999(i / 1000) + " mil"
    ensures i % 1000 == 0 ==> IntegerWords(i) == ThousandsWords(i / 1000)
    ensures 0 < i % 1000 < 100 ==>
      IntegerWords(i) == ThousandsWords(i / 1000) + " e " + Words999(i % 1000)
    ensures i % 1000 >= 100 ==>
      IntegerWords(i) == ThousandsWords(i / 1000) + " " + Words999(i % 1000)
  {
  }

  /** How the integer and cents phrases are joined: "zero" for nothing,
      " reais" after a lone integer part, " reais e " between both parts, and a
      lone cents phrase with no "reais" at all. */
  lemma AmountToWordsShape(cents: nat)
    requires cents / 100 < IntegerLimit
    ensures cents == 0 ==> AmountToWords(cents) == "zero"
    ensures cents / 100 > 0 && cents % 100 == 0 ==>
      AmountToWords(cents) == IntegerWords(cents / 100) + " reais"
    ensures cents / 100 > 0 && cents % 100 > 0 ==>
      AmountToWords(cents) == IntegerWords(cents / 100) + " reais e " + CentsWords(cents % 100)
    ensures cents / 100 == 0 && cents % 100 > 0 ==>
      AmountToWords(cents) == CentsWords(cents % 100)
  {
    if cents / 100 == 0 && cents % 100 > 0 {
      assert IntegerWords(0) == "";
    }
  }

  /** The integer part one is "um", so one real is written "um reais". */
  lemma OneRealIsUmReais()
    ensures AmountToWords(100) == "um reais"
  {
  }
}

=== FILE: extenso_decode.dfy ===
/**
  A reader for the phrases `numeroParaExtenso` writes. It splits a phrase on
  spaces and folds the words left to right into a running total of cents.
  The lemmas below show it inverts `AmountToWords`, so distinct amounts are
  always written differently.
*/
module ExtensoDecode {
  import opened Strings
  import opened Extenso

  /** The reader's own dictionary, written independently of the formatter's
      tables: the number a single word stands for. The connective "e", "zero"
      and any word outside the dictionary stand for 0. */
  function TokenValue(w: string): (v: nat)
  {
    if w == "e" || w == "zero" then 0
    else if w == "um" then 1
    else if w == "dois" then 2
    else if w == "três" then 3
    else if w == "quatro" then 4
    else if w == "cinco" then 5
    else if w == "seis" then 6
    else if w == "sete" then 7
    else if w == "oito" then 8
    else if w == "nove" then 9
    else if w == "dez" then 10
    else if w == "onze" then 11
    else if w == "doze" then 12
    else if w == "treze" then 13
    else if w == "quatorze" then 14
    else if w == "quinze" then 15
    else if w == "dezesseis" then 16
    else if w == "dezessete" then 17
    else if w == "dezoito" then 18
    else if w == "dezenove" then 19
    else if w == "vinte" then 20
    else if w == "trinta" then 30
    else if w == "quarenta" then 40
    else if w == "cinquenta" then 50
    else if w == "sessenta" then 60
    else if w == "setenta" then 70
    else if w == "oitenta" then 80
    else if w == "noventa" then 90
    else if w == "cem" then 100
    else if w == "cento" then 100
    else if w == "duzentos" then 200
    else if w == "trezentos" then 300
    else if w == "quatrocentos" then 400
    else if w == "quinhentos" then 500
    else if w == "seiscentos" then 600
    else if w == "setecentos" then 700
    else if w == "oitocentos" then 800
    else if w == "novecentos" then 900
    else 0
  }

  /** Reader state: cents already settled, and the number being accumulated. */
  datatype Acc = Acc(total: nat, current: nat)

  /** One word: "mil" multiplies the current number (bare "mil" is one
      thousand), "reais" turns everything so far into cents, "centavo(s)"
      settles the current number as cents, any other word adds its value. */
  function Step(a: Acc, w: string): (b: Acc)
  {
    if w == "mil" then Acc(a.total + (if a.current == 0 then 1 else a.current) * 1000, 0)
    else if w == "reais" then Acc((a.total + a.current) * 100, 0)
    else if w == "centavo" || w == "centavos" then Acc(a.total + a.current, 0)
    else Acc(a.total, a.current + TokenValue(w))
  }

  function Run(words: seq<string>, a: Acc): (b: Acc)
    decreases |words|
  {
    if words == [] then a else Run(words[1..], Step(a, words[0]))
  }

  /** Reads the words of a phrase starting from state `a`. */
  function Eval(s: string, a: Acc): (b: Acc)
  {
    Run(Split(s, ' '), a)
  }

  /** The amount in cents a phrase spells. */
  function Decode(s: string): (n: nat)
  {
    var a := Eval(s, Acc(0, 0));
    a.total + a.current
  }

  // ---------------------------------------------------------------------------
  // Reading is compositional
  // ---------------------------------------------------------------------------

  lemma {:induction false} RunAppend(xs: seq<string>, ys: seq<string>, a: Acc)
    ensures Run(xs + ys, a) == Run(ys, Run(xs, a))
    decreases |xs|
  {
    if xs == [] {
      assert xs + ys == ys;
    } else {
      assert (xs + ys)[0] == xs[0];
      assert (xs + ys)[1..] == xs[1..] + ys;
      RunAppend(xs[1..], ys, Step(a, xs[0]));
    }
  }

  /** A space separates two independently read phrases. */
  lemma EvalSpace(x: string, y: string, a: Acc)
    ensures Eval(x + " " + y, a) == Eval(y, Eval(x, a))
  {
    SplitAppend(x, y, ' ');
    RunAppend(Split(x, ' '), Split(y, ' '), a);
  }

  /** A word without spaces is read in one step. */
  lemma EvalWord(w: string, a: Acc)
    requires ' ' !in w
    ensures Eval(w, a) == Step(a, w)
  {
    SplitNoSep(w, ' ');
    assert Split(w, ' ') == [w];
    assert [w][1..] == [];
    assert Run([w], a) == Run([], Step(a, w));
  }

  /** The connective " e " adds nothing. */
  lemma EvalAnd(x: string, y: string, a: Acc)
    ensures Eval(x + " e " + y, a) == Eval(y, Eval(x, a))
  {
    assert x + " e " + y == x + " " + ("e" + " " + y);
    EvalSpace(x, "e" + " " + y, a);
    EvalSpace("e", y, Eval(x, a));
    EvalWord("e", Eval(x, a));
    assert TokenValue("e") == 0;
  }

  /** The words that settle or scale an amount rather than add to it. */
  predicate IsMarker(w: string)
  {
    w == "mil" || w == "reais" || w == "centavo" || w == "centavos"
  }

  /** `w` is a single word that adds `v` to the number being accumulated. */
  predicate NumberWord(w: string, v: nat)
  {
    ' ' !in w && !IsMarker(w) && TokenValue(w) == v
  }

  lemma EvalNumber(w: string, v: nat, a: Acc)
    requires NumberWord(w, v)
    ensures Eval(w, a) == Acc(a.total, a.current + v)
  {
    EvalWord(w, a);
  }

  // ---------------------------------------------------------------------------
  // The tables read back as their positions
  // ---------------------------------------------------------------------------

  /** unidades[k] is the word for k. */
  lemma UnitsWord(k: nat)
    requires 1 <= k < 10
    ensures NumberWord(Units[k], k)
  {
  }

  /** dezenasEspeciais[k] is the word for 10 + k. */
  lemma TeensWord(k: nat)
    requires k < 10
    ensures NumberWord(Teens[k], 10 + k)
  {
  }

  /** dezenas[k] is the word for 10 * k. */
  lemma TensWord(k: nat)
    requires 2 <= k < 10
    ensures NumberWord(Tens[k], 10 * k)
  {
  }

  /** centenas[k] is the word for 100 * k. */
  lemma HundredsWord(k: nat)
    requires 1 <= k < 10
    ensures NumberWord(Hundreds[k], 100 * k)
  {
  }

  // ---------------------------------------------------------------------------
  // Every phrase reads back as the number it was written for
  // ---------------------------------------------------------------------------

  /** A 1..99 phrase adds exactly its number to the value being accumulated. */
  lemma Below100Reads(n: nat, a: Acc)
    requires 1 <= n < 100
    ensures Eval(TensAndUnits(n), a) == Acc(a.total, a.current + n)
  {
    TensAndUnitsShape(n);
    var ten := n / 10;
    var unit := n % 10;
    if n < 10 {
      UnitsReads(n, a);
    } else if ten == 1 {
      TeensWord(unit);
      EvalNumber(Teens[unit], n, a);
    } else if unit == 0 {
      TensReads(ten, a);
    } else {
      TensAndUnitReads(ten, unit, a);
    }
  }

  lemma UnitsReads(unit: nat, a: Acc)
    requires 1 <= unit < 10
    ensures Eval(Units[unit], a) == Acc(a.total, a.current + unit)
  {
    UnitsWord(unit);
    EvalNumber(Units[unit], unit, a);
  }

  lemma TensReads(ten: nat, a: Acc)
    requires 2 <= ten < 10
    ensures Eval(Tens[ten], a) == Acc(a.total, a.current + 10 * ten)
  {
    TensWord(ten);
    EvalNumber(Tens[ten], 10 * ten, a);
  }

  lemma TensAndUnitReads(ten: nat, unit: nat, a: Acc)
    requires 2 <= ten < 10 && 1 <= unit < 10
    ensures Eval(Tens[ten] + " e " + Units[unit], a) == Acc(a.total, a.current + 10 * ten + unit)
  {
    EvalAnd(Tens[ten], Units[unit], a);
    TensReads(ten, a);
    UnitsReads(unit, Acc(a.total, a.current + 10 * ten));
  }

  lemma HundredsReads(h: nat, a: Acc)
    requires 1 <= h < 10
    ensures Eval(Hundreds[h], a) == Acc(a.total, a.current + 100 * h)
  {
    HundredsWord(h);
    EvalNumber(Hundreds[h], 100 * h, a);
  }

  /** A 1..999 phrase adds exactly its number to the value being accumulated. */
  lemma Words999Reads(n: nat, a: Acc)
    requires 1 <= n < 1000
    ensures Eval(Words999(n), a) == Acc(a.total, a.current + n)
  {
    if n < 100 {
      Words999Below100(n);
      Below100Reads(n, a);
    } else {
      Words999Hundreds(n);
      var h := n / 100;
      var r := n % 100;
      if n == 100 {
        EvalWord("cem", a);
      } else if r == 0 {
        HundredsReads(h, a);
      } else {
        Words999Below100(r);
        EvalAnd(Hundreds[h], TensAndUnits(r), a);
        HundredsReads(h, a);
        Below100Reads(r, Acc(a.total, a.current + 100 * h));
      }
    }
  }

  /** The thousands part settles its value in thousands. */
  lemma ThousandsReads(q: nat, t: nat)
    requires 1 <= q < 1000
    ensures Eval(ThousandsWords(q), Acc(t, 0)) == Acc(t + 1000 * q, 0)
  {
    if q == 1 {
      EvalWord("mil", Acc(t, 0));
    } else {
      assert ThousandsWords(q) == Words999(q) + " " + "mil";
      EvalSpace(Words999(q), "mil", Acc(t, 0));
      Words999Reads(q, Acc(t, 0));
      EvalWord("mil", Acc(t, q));
    }
  }

  /** An integer phrase reads back as its number. */
  lemma IntegerWordsReads(i: nat, t: nat)
    requires 1 <= i < IntegerLimit
    ensures Eval(IntegerWords(i), Acc(t, 0)).total + Eval(IntegerWords(i), Acc(t, 0)).current == t + i
  {
    if i == 1 {
      UnitsReads(1, Acc(t, 0));
    } else if i < 1000 {
      Words999Reads(i, Acc(t, 0));
    } else {
      IntegerWordsShape(i);
      var q := i / 1000;
      var r := i % 1000;
      ThousandsReads(q, t);
      if 0 < r < 100 {
        EvalAnd(ThousandsWords(q), Words999(r), Acc(t, 0));
        Words999Reads(r, Acc(t + 1000 * q, 0));
      } else if r >= 100 {
        EvalSpace(ThousandsWords(q), Words999(r), Acc(t, 0));
        Words999Reads(r, Acc(t + 1000 * q, 0));
      }
    }
  }

  /** The cents phrase is the 1..99 phrase followed by "centavo" (singular only
      for one cent) or "centavos". */
  lemma CentsWordsAreWords999(d: nat)
    requires 1 <= d < 100
    ensures d == 1 ==> CentsWords(d) == Words999(d) + " centavo"
    ensures d > 1 ==> CentsWords(d) == Words999(d) + " centavos"
  {
    Words999Below100(d);
    CentsWordsAreTensAndUnits(d);
  }

  lemma CentsWordsAreTensAndUnits(d: nat)
    requires 1 <= d < 100
    ensures d == 1 ==> CentsWords(d) == TensAndUnits(d) + " centavo"
    ensures d > 1 ==> CentsWords(d) == TensAndUnits(d) + " centavos"
  {
    TensAndUnitsShape(d);
    if d >= 20 && d % 10 != 0 {
      assert CentsWords(d) == (Tens[d / 10] + " e " + Units[d % 10]) + " centavos";
    }
  }

  /** "<n> centavos" settles n cents. */
  lemma SettleReads(d: nat, t: nat, marker: string)
    requires 1 <= d < 100
    requires marker == "centavo" || marker == "centavos"
    ensures Eval(Words999(d) + " " + marker, Acc(t, 0)) == Acc(t + d, 0)
  {
    Words999Reads(d, Acc(t, 0));
    EvalSpace(Words999(d), marker, Acc(t, 0));
    EvalWord(marker, Acc(t, d));
  }

  /** A cents phrase settles exactly its number of cents. */
  lemma CentsWordsReads(d: nat, t: nat)
    requires 1 <= d < 100
    ensures Eval(CentsWords(d), Acc(t, 0)) == Acc(t + d, 0)
  {
    CentsWordsAreWords999(d);
    if d == 1 {
      assert CentsWords(d) == Words999(d) + " " + "centavo";
      SettleReads(d, t, "centavo");
    } else {
      assert CentsWords(d) == Words999(d) + " " + "centavos";
      SettleReads(d, t, "centavos");
    }
  }

  /** An integer phrase followed by "reais" settles the integer part as cents. */
  lemma ReaisReads(reais: nat)
    requires 1 <= reais < IntegerLimit
    ensures Eval(IntegerWords(reais) + " reais", Acc(0, 0)) == Acc(100 * reais, 0)
  {
    IntegerWordsReads(reais, 0);
    assert IntegerWords(reais) + " reais" == IntegerWords(reais) + " " + "reais";
    EvalSpace(IntegerWords(reais), "reais", Acc(0, 0));
    EvalWord("reais", Eval(IntegerWords(reais), Acc(0, 0)));
  }

  /** Round trip: reading the phrase for an amount gives the amount back. */
  lemma AmountToWordsDecodes(cents: nat)
    requires cents / 100 < IntegerLimit
    ensures Decode(AmountToWords(cents)) == cents
  {
    var reais := cents / 100;
    var centavos := cents % 100;
    AmountToWordsShape(cents);
    if cents == 0 {
      EvalWord("zero", Acc(0, 0));
    } else if centavos == 0 {
      ReaisReads(reais);
    } else if reais == 0 {
      CentsWordsReads(centavos, 0);
    } else {
      var integerPart := IntegerWords(reais) + " reais";
      assert AmountToWords(cents) == integerPart + " e " + CentsWords(centavos);
      ReaisReads(reais);
      EvalAnd(integerPart, CentsWords(centavos), Acc(0, 0));
      CentsWordsReads(centavos, 100 * reais);
    }
  }

  /** Distinct amounts are never written the same way. */
  lemma AmountToWordsInjective(c1: nat, c2: nat)
    requires c1 / 100 < IntegerLimit && c2 / 100 < IntegerLimit
    ensures AmountToWords(c1) == AmountToWords(c2) <==> c1 == c2
  {
    AmountToWordsDecodes(c1);
    AmountToWordsDecodes(c2);
  }
}

=== FILE: formulario.dfy ===
/**
  The string transforms of the contract form: the change handler that keeps
  only digits in the total (`valor_pagar`), the digit-stripping step of the
  currency display, and the YYYY-MM-DD to DD-MM-YYYY reordering done before
  submission.
*/
module Formulario {
  import opened Wrappers
  import opened Strings

  /** The form's field values by field name (`formData`). */
  type Form = map<string, string>

  /** The only field whose input is filtered. */
  const TotalField: string := "valor_pagar"

  /** The total holds digits only, so `parseInt` reads it as whole cents. */
  predicate TotalIsDigits(form: Form)
  {
    TotalField in form ==> AllDigits(form[TotalField])
  }

  /** `handleChange`: stores the edited value under its field name, with
      every non-digit removed when the field is the total; no other field
      changes. */
  function HandleChange(form: Form, name: string, value: string): (r: Form)
    ensures r.Keys == form.Keys + {name}
    ensures forall k :: k in form && k != name ==> r[k] == form[k]
    ensures name == TotalField ==> r[name] == Digits(value)
    ensures name != TotalField ==> r[name] == value
  {
    if name == TotalField then form[name := Digits(value)] else form[name := value]
  }

  /** Every edit keeps the total digit-only. */
  lemma HandleChangeKeepsTotalDigits(form: Form, name: string, value: string)
    requires TotalIsDigits(form)
    ensures TotalIsDigits(HandleChange(form, name, value))
  {
  }

  /** The step of `formatCurrency` before the locale formatting: the amount in
      cents spelled by the digits of the input, or nothing when it has none. */
  function CurrencyCents(value: string): (r: Option<nat>)
    ensures r.None? <==> forall i :: 0 <= i < |value| ==> !IsDigit(value[i])
    ensures r.Some? ==> r.value == ParseDigits(Digits(value))
  {
    var digits := Digits(value);
    if digits == [] then
      None
    else
      assert IsDigit(digits[0]);
      assert digits[0] in multiset(digits);
      assert multiset(digits)[digits[0]] == multiset(value)[digits[0]];
      assert digits[0] in multiset(value);
      Some(ParseDigits(digits))
  }

  /** What a template literal prints for a missing array element. */
  const Missing: string := "undefined"

  /** `parts[i]` inside a template literal: the element, or "undefined" past the end. */
  function FieldOr(parts: seq<string>, i: nat): (s: string)
  {
    if i < |parts| then parts[i] else Missing
  }

  /** Three dash-free fields joined by '-' split back into those fields. */
  lemma {:induction false} SplitThree(a: string, b: string, c: string)
    requires '-' !in a && '-' !in b && '-' !in c
    ensures Split(a + "-" + b + "-" + c, '-') == [a, b, c]
  {
    var fields := [a, b, c];
    assert Join(fields[2..], '-') == c;
    assert Join(fields[1..], '-') == b + "-" + c;
    assert Join(fields, '-') == a + "-" + b + "-" + c;
    SplitJoin(fields, '-');
  }

  /** The date reordering of `handleSubmit`: split on '-', then print the
      third, second and first fields joined by '-'. The result always has
      exactly three dash-separated fields, the input's first three in
      reverse order. */
  function ReformatDate(date: string): (s: string)
    ensures var p := Split(date, '-');
      Split(s, '-') == [FieldOr(p, 2), FieldOr(p, 1), FieldOr(p, 0)]
  {
    var parts := Split(date, '-');
    JoinSplit(date, '-');
    var s := FieldOr(parts, 2) + "-" + FieldOr(parts, 1) + "-" + FieldOr(parts, 0);
    SplitThree(FieldOr(parts, 2), FieldOr(parts, 1), FieldOr(parts, 0));
    s
  }

  /** "Y-M-D" becomes "D-M-Y". */
  lemma {:induction false} ReformatDateFields(y: string, m: string, d: string)
    requires '-' !in y && '-' !in m && '-' !in d
    ensures ReformatDate(y + "-" + m + "-" + d) == d + "-" + m + "-" + y
  {
    SplitThree(y, m, d);
  }

  /** On a date with exactly three fields the reordering is its own inverse. */
  lemma ReformatDateInvolutive(date: string)
    requires |Split(date, '-')| == 3
    ensures ReformatDate(ReformatDate(date)) == date
  {
    var p := Split(date, '-');
    JoinSplit(date, '-');
    assert '-' !in p[0] && '-' !in p[1] && '-' !in p[2];
    assert p[1..][1..] == [p[2]];
    assert Join(p[1..][1..], '-') == p[2];
    assert Join(p[1..], '-') == p[1] + "-" + p[2];
    assert date == p[0] + "-" + p[1] + "-" + p[2];
    ReformatDateFields(p[0], p[1], p[2]);
    ReformatDateFields(p[2], p[1], p[0]);
  }

  /** An empty date has a single field, so two positions print as missing. */
  lemma ReformatEmptyDate()
    ensures ReformatDate("") == "undefined-undefined-"
  {
  }
}

=== FILE: idade.dfy ===
/**
  `checkAge` and `handleDateChange`: the age in whole years between a birth
  date and today, and the validation message shown when it is below 18.
  Dates are (year, month, day) triples; calendar validity is not modelled.
*/
module Idade {

  datatype Date = Date(year: int, month: int, day: int)

  /** Minimum age accepted by the form. */
  const MinimumAge: int := 18

  /** The message `handleDateChange` sets for an under-age birth date. */
  const UnderAgeMessage: string := "Você deve ter pelo menos 18 anos"

  /** Strict chronological order of two dates (year, then month, then day). */
  predicate Before(a: Date, b: Date)
  {
    a.year < b.year
    || (a.year == b.year && a.month < b.month)
    || (a.year == b.year && a.month == b.month && a.day < b.day)
  }

  /** The `k`-th birthday: the birth month and day, `k` years later. */
  function Birthday(birth: Date, k: int): (d: Date)
  {
    Date(birth.year + k, birth.month, birth.day)
  }

  /** By `today` the person has had their `k`-th birthday. */
  predicate HasTurned(today: Date, birth: Date, k: int)
  {
    !Before(today, Birthday(birth, k))
  }

  /** `checkAge`: the year difference, one less while this year's birthday is
      still ahead. It is the largest k whose k-th birthday is not after today. */
  function Age(today: Date, birth: Date): (age: int)
    ensures forall k :: HasTurned(today, birth, k) <==> k <= age
  {
    var years := today.year - birth.year;
    var monthDiff := today.month - birth.month;
    if monthDiff < 0 || (monthDiff == 0 && today.day < birth.day) then years - 1
    else years
  }

  /** The age is the year difference, minus one exactly when today's month
      and day come before the birth month and day. */
  lemma AgeYearDifference(today: Date, birth: Date)
    ensures Age(today, birth) == today.year - birth.year
         || Age(today, birth) == today.year - birth.year - 1
    ensures Age(today, birth) == today.year - birth.year - 1 <==>
      (today.month < birth.month || (today.month == birth.month && today.day < birth.day))
  {
  }

  /** `handleDateChange`: the validation message for a newly entered birth
      date, empty exactly when the 18th birthday is not after today. */
  function DateErrorFor(today: Date, birth: Date): (message: string)
    ensures message == [] <==> HasTurned(today, birth, MinimumAge)
    ensures message != [] ==> message == UnderAgeMessage
  {
    if Age(today, birth) < MinimumAge then UnderAgeMessage else ""
  }

  /** A birth date exactly 18 years before today is accepted. */
  lemma EighteenToday(today: Date)
    ensures Age(today, Date(today.year - 18, today.month, today.day)) == 18
    ensures DateErrorFor(today, Date(today.year - 18, today.month, today.day)) == []
  {
  }

  /** One day short of 18 years is rejected. This holds on the integer
      triples of the model; a browser that reads "YYYY-MM-DD" as UTC midnight
      and then takes local date parts sees the birth day one day early at a
      negative UTC offset, and so accepts this birth date. */
  lemma EighteenTomorrow(today: Date)
    ensures Age(today, Date(today.year - 18, today.month, today.day + 1)) == 17
    ensures DateErrorFor(today, Date(today.year - 18, today.month, today.day + 1)) == UnderAgeMessage
  {
  }
}

=== FILE: parcela.dfy ===
/**
  The installment value (`valor_parcela`) recomputed whenever the total or
  the number of installments changes: the total in cents divided by the
  number of installments, rounded to the nearest cent with halves rounded up.
  This is what `Math.round` does on the exact quotient; the source divides in
  floating point, which rounds some half-cent ties down.
*/
module Parcela {
  import opened Wrappers
  import opened Strings

  /** Twice the signed distance between `r` installments of `n` and `total`. */
  function Deviation2(total: nat, n: nat, r: int): (d: int)
  {
    2 * (r * n - total)
  }

  /** The nearest-integer condition with halves rounding up:
      total/n - 1/2 < r <= total/n + 1/2. */
  predicate NearestHalfUp(total: nat, n: nat, r: int)
  {
    -(n as int) < Deviation2(total, n, r) <= n
  }

  /** The per-installment value in cents. */
  function InstallmentValue(total: nat, n: nat): (r: nat)
    requires n > 0
    ensures NearestHalfUp(total, n, r)
  {
    var r := (2 * total + n) / (2 * n);
    assert r * (2 * n) <= 2 * total + n < (r + 1) * (2 * n) by {
      var m := 2 * total + n;
      assert m == (m / (2 * n)) * (2 * n) + m % (2 * n);
    }
    assert r * (2 * n) == 2 * (r * n);
    r
  }

  /** No other integer satisfies the nearest-integer condition. */
  lemma NearestHalfUpUnique(total: nat, n: nat, r1: int, r2: int)
    requires n > 0
    requires NearestHalfUp(total, n, r1) && NearestHalfUp(total, n, r2)
    ensures r1 == r2
  {
    var d := r1 - r2;
    assert d * n == r1 * n - r2 * n;
    assert -(n as int) < d * n < n;
    if d > 0 {
      assert false;
    } else if d < 0 {
      assert false;
    }
  }

  /** `InstallmentValue` is exactly the integer nearest to total/n, halves up. */
  lemma InstallmentValueIsNearest(total: nat, n: nat, r: int)
    requires n > 0
    ensures NearestHalfUp(total, n, r) <==> r == InstallmentValue(total, n)
  {
    if NearestHalfUp(total, n, r) {
      NearestHalfUpUnique(total, n, r, InstallmentValue(total, n));
    }
  }

  /** The installments miss the total by at most half an installment count. */
  lemma InstallmentValueError(total: nat, n: nat)
    requires n > 0
    ensures var r := InstallmentValue(total, n);
      2 * (r * n - total) <= n && 2 * (total - r * n) < n
  {
  }

  /** When n divides the total, the n installments add up to it exactly. */
  lemma InstallmentValueExact(total: nat, n: nat)
    requires n > 0 && total % n == 0
    ensures InstallmentValue(total, n) * n == total
  {
    var q := total / n;
    assert q * n == total;
    assert Deviation2(total, n, q) == 0;
    NearestHalfUpUnique(total, n, q, InstallmentValue(total, n));
  }

  /** The effect on `valor_parcela`: nothing changes while the total is empty,
      the count is empty or the count is not positive; otherwise the field is
      the decimal `toString` of the rounded installment value. The total holds
      only digits, as the change handler keeps it. */
  function RecomputeInstallment(valorPagar: string, qtdParcelas: Option<int>, current: string): (r: string)
    requires AllDigits(valorPagar)
    ensures valorPagar == [] || qtdParcelas.None? || qtdParcelas.value <= 0 ==> r == current
    ensures valorPagar != [] && qtdParcelas.Some? && qtdParcelas.value > 0 ==>
      Canonical(r) && NearestHalfUp(ParseDigits(valorPagar), qtdParcelas.value, ParseDigits(r))
  {
    if valorPagar != [] && qtdParcelas.Some? then
      var parcelas := qtdParcelas.value;
      if parcelas > 0 then NatToString(InstallmentValue(ParseDigits(valorPagar), parcelas))
      else current
    else current
  }

  /** Re-running the effect with unchanged inputs changes nothing. */
  lemma RecomputeInstallmentIdempotent(valorPagar: string, qtdParcelas: Option<int>, current: string)
    requires AllDigits(valorPagar)
    ensures RecomputeInstallment(valorPagar, qtdParcelas, RecomputeInstallment(valorPagar, qtdParcelas, current))
         == RecomputeInstallment(valorPagar, qtdParcelas, current)
  {
  }
}

=== FILE: strings.dfy ===
/**
  String helpers shared by the form model: JavaScript's `String.prototype.split`
  on a single separator character and its inverse `join`, the `replace(/\D/g, '')`
  digit filter, and `parseInt`/`toString` restricted to decimal digit strings.
*/
module Strings {

  // ---------------------------------------------------------------------------
  // split / join
  // ---------------------------------------------------------------------------

  /** Joins the fields with `sep` between consecutive fields (`Array.prototype.join`). */
  function Join(fields: seq<string>, sep: char): (s: string)
  {
    if |fields| == 0 then []
    else if |fields| == 1 then fields[0]
    else fields[0] + [sep] + Join(fields[1..], sep)
  }

  /** `s.split(sep)`; there is always at least one field. */
  function Split(s: string, sep: char): (fields: seq<string>)
    ensures |fields| >= 1
    decreases |s|
  {
    if s == [] then [[]]
    else
      var rest := Split(s[1..], sep);
      if s[0] == sep then [[]] + rest
      else [[s[0]] + rest[0]] + rest[1..]
  }

  /** No field holds the separator, and joining the fields gives the string back. */
  lemma {:induction false} JoinSplit(s: string, sep: char)
    ensures forall i :: 0 <= i < |Split(s, sep)| ==> sep !in Split(s, sep)[i]
    ensures Join(Split(s, sep), sep) == s
    decreases |s|
  {
    if s != [] {
      JoinSplit(s[1..], sep);
      var rest := Split(s[1..], sep);
      var fields := Split(s, sep);
      assert s == [s[0]] + s[1..];
      if s[0] == sep {
        assert fields == [[]] + rest;
        assert forall i :: 1 <= i < |fields| ==> fields[i] == rest[i - 1];
      } else {
        assert fields == [[s[0]] + rest[0]] + rest[1..];
        assert forall i :: 1 <= i < |fields| ==> fields[i] == rest[i];
        if |rest| > 1 {
          assert Join(rest, sep) == rest[0] + [sep] + Join(rest[1..], sep);
        }
      }
    }
  }

  /** A string without the separator is a single field. */
  lemma {:induction false} SplitNoSep(w: string, sep: char)
    requires sep !in w
    ensures Split(w, sep) == [w]
    decreases |w|
  {
    if w != [] {
      SplitNoSep(w[1..], sep);
      assert w == [w[0]] + w[1..];
    }
  }

  /** Splitting at a separator occurrence concatenates the field lists of both sides. */
  lemma {:induction false} SplitAppend(a: string, b: string, sep: char)
    ensures Split(a + [sep] + b, sep) == Split(a, sep) + Split(b, sep)
    decreases |a|
  {
    var s := a + [sep] + b;
    if a == [] {
      assert s == [sep] + b;
      assert s[1..] == b;
    } else {
      assert s[0] == a[0];
      assert s[1..] == a[1..] + [sep] + b;
      SplitAppend(a[1..], b, sep);
    }
  }

  /** Splitting a join of separator-free fields gives the fields back. */
  lemma {:induction false} SplitJoin(fields: seq<string>, sep: char)
    requires |fields| >= 1
    requires forall i :: 0 <= i < |fields| ==> sep !in fields[i]
    ensures Split(Join(fields, sep), sep) == fields
    decreases |fields|
  {
    SplitNoSep(fields[0], sep);
    if |fields| > 1 {
      SplitJoin(fields[1..], sep);
      SplitAppend(fields[0], Join(fields[1..], sep), sep);
      assert fields == [fields[0]] + fields[1..];
    }
  }

  // ---------------------------------------------------------------------------
  // digit filter
  // ---------------------------------------------------------------------------

  predicate IsDigit(c: char)
  {
    '0' <= c <= '9'
  }

  predicate AllDigits(s: string)
  {
    forall i :: 0 <= i < |s| ==> IsDigit(s[i])
  }

  /** `s.replace(/\D/g, '')`: keeps exactly the decimal digits of `s`, each as
      often as it occurs there, and leaves a digit-only string unchanged. */
  function Digits(s: string): (r: string)
    ensures AllDigits(r)
    ensures |r| <= |s|
    ensures forall c :: IsDigit(c) ==> multiset(r)[c] == multiset(s)[c]
    ensures AllDigits(s) ==> r == s
    decreases |s|
  {
    if s == [] then []
    else
      var rest := Digits(s[1..]);
      assert s == [s[0]] + s[1..];
      assert multiset(s) == multiset([s[0]]) + multiset(s[1..]);
      if IsDigit(s[0]) then
        assert multiset([s[0]] + rest) == multiset([s[0]]) + multiset(rest);
        [s[0]] + rest
      else rest
  }

  /** The filter keeps the original order: it distributes over concatenation. */
  lemma {:induction false} DigitsAppend(a: string, b: string)
    ensures Digits(a + b) == Digits(a) + Digits(b)
    decreases |a|
  {
    if a == [] {
      assert a + b == b;
    } else {
      assert (a + b)[0] == a[0];
      assert (a + b)[1..] == a[1..] + b;
      DigitsAppend(a[1..], b);
      if IsDigit(a[0]) {
        calc {
          Digits(a + b);
          [a[0]] + Digits(a[1..] + b);
          [a[0]] + (Digits(a[1..]) + Digits(b));
          ([a[0]] + Digits(a[1..])) + Digits(b);
        }
      }
    }
  }

  /** Filtering twice is filtering once. */
  lemma DigitsIdempotent(s: string)
    ensures Digits(Digits(s)) == Digits(s)
  {
  }

  // ---------------------------------------------------------------------------
  // parseInt / toString on decimal digit strings
  // ---------------------------------------------------------------------------

  function DigitValue(c: char): (d: nat)
    requires IsDigit(c)
  {
    (c - '0') as nat
  }

  function DigitChar(d: nat): (c: char)
    requires d < 10
    ensures IsDigit(c) && DigitValue(c) == d
  {
    ('0' as int + d) as char
  }

  /** 10 to the power `k`. */
  function Pow10(k: nat): (p: nat)
    ensures p >= 1
  {
    if k == 0 then 1 else 10 * Pow10(k - 1)
  }

  /** The exact value of a string of decimal digits (leading zeros allowed):
      a string of k digits spells a value below 10^k. This is `parseInt` only
      below 2^53; above that `parseInt` returns a rounded double, which this
      model does not follow. The empty string gives 0
      only as the base of the recursion; `parseInt("")` is NaN, and every
      caller in the model parses a non-empty string. */
  function ParseDigits(s: string): (r: nat)
    requires AllDigits(s)
    ensures r < Pow10(|s|)
    decreases |s|
  {
    if s == [] then 0
    else ParseDigits(s[..|s| - 1]) * 10 + DigitValue(s[|s| - 1])
  }

  /** Canonical: no leading zero unless the string is "0". */
  predicate Canonical(s: string)
  {
    |s| >= 1 && AllDigits(s) && (s[0] == '0' ==> |s| == 1)
  }

  /** `n.toString()` on exact integers: a canonical digit string that parses
      back to `n`. JavaScript prints a rounded double above 2^53 and uses
      exponent notation from 10^21; neither is modelled. */
  function NatToString(n: nat): (s: string)
    ensures Canonical(s)
    ensures ParseDigits(s) == n
    decreases n
  {
    if n < 10 then [DigitChar(n)]
    else
      var p := NatToString(n / 10);
      var s := p + [DigitChar(n % 10)];
      assert s[..|s| - 1] == p;
      s
  }

  lemma {:induction false} ParseDigitsPositive(s: string)
    requires Canonical(s) && s[0] != '0'
    ensures ParseDigits(s) >= 1
    decreases |s|
  {
    if |s| > 1 {
      var p := s[..|s| - 1];
      assert p[0] == s[0];
      ParseDigitsPositive(p);
    }
  }

  /** The other direction of the round trip: a canonical digit string is the
      `toString` of its own value. */
  lemma {:induction false} NatToStringParse(s: string)
    requires Canonical(s)
    ensures NatToString(ParseDigits(s)) == s
    decreases |s|
  {
    var n := ParseDigits(s);
    if |s| == 1 {
      assert s[..|s| - 1] == [];
      assert ParseDigits(s[..|s| - 1]) == 0;
      assert n == DigitValue(s[0]);
      assert DigitChar(n) == s[0];
    } else {
      var p := s[..|s| - 1];
      assert p[0] == s[0];
      if s[0] == '0' {
        assert false;
      }
      ParseDigitsPositive(p);
      NatToStringParse(p);
      assert n / 10 == ParseDigits(p);
      assert n % 10 == DigitValue(s[|s| - 1]);
      assert s == p + [s[|s| - 1]];
    }
  }
}

=== FILE: wrappers.dfy ===
/** An optional value. */
module Wrappers {

  /** `None` stands for an empty form field. */
  datatype Option<+T> = None | Some(value: T)
}
